=== FILE: README.md ===
# Pomodoro timer session state machine, in Dafny

A model of the timer core of a single-page Pomodoro web application
(`script.js`). The page keeps one mutable `state` object and changes it from
DOM event handlers and a one-second `setInterval` callback, interleaved with
DOM writes. The model lifts the state changes out as pure functions over an
immutable `AppState.State` record:

- **Clock** (`clock.dfy`): `startTimer` / `pauseTimer`, both guarded no-ops when repeated.
- **Scheduler** (`scheduler.dfy`): `resetTimer`, `switchSession`, the skip button and `applySettings`; the long-break rule `sessionCount > 0 && sessionCount % longBreakInterval === 0`.
- **Session** (`session.dfy`): `tick`, the expiry branch (counters, today's log entry, crediting the active task, then the switch), and runs of many ticks and whole focus/break cycles.
- **Task ledger** (`ledger.dfy`): add (with `trim`), select toggle, delete (filter), and the `find`-first crediting.
- **Statistics log** (`stats.dfy`): per-day counts keyed by a date string.
- **Persistence** (`persistence.dfy`): `saveState` as a snapshot with the transient fields stripped; `loadState` with its day-rollover rule.
- **Display** (`display.dfy`): the `mm:ss` text and the period label.
- **Controller** (`controller.dfy`): the page's handlers wired into steps over a world of live state plus stored snapshot, with `saveState` exactly where the handlers call it, and start-up (`init`).
- **Text** (`text.dfy`): JavaScript `trim`, integer `toString` and `padStart(2, '0')` over `string`.

External inputs are parameters: today's date key, fresh task ids
(`Date.now()`), interval handles (`setInterval`) and the settings as already
parsed integers.

Behaviours of the code worth knowing:

- A period that runs out leaves the clock paused (`isRunning = false`); the next period never starts by itself.
- `saveState` keeps `ambientSound.isPlaying` as it is; only `element`, `timerInterval` and `isRunning` are reset.
- Settings are installed as parsed, with no rejection or clamping of zero or negative values.
- A corrupt stored record makes `JSON.parse` throw; there is no fallback to defaults.
- The statistics key is the UTC date (`toISOString`), not the local one; the model takes the key as an input either way.

Choices that keep the model faithful to JavaScript:

- `IsLongBreak` needs no `longBreakInterval >= 1` precondition. JavaScript's `%` truncates and Dafny's is Euclidean, but they agree on whether a remainder is zero, and `n % 0` is NaN in JavaScript, which is never `=== 0`.
- `if (state.activeTaskId)` is truthiness, so an id of 0 credits no task (`Ledger.IsTruthy`).
- `clearInterval` does not null `state.timerInterval`, so the stale handle survives a pause or an expiry.
- The seconds in `mm:ss` use JavaScript's truncating `%`, so negative times render with minus signs.

## Model

| member | source | states |
|---|---|---|
| Text.Trim | script.js:298 | `trim` yields a contiguous slice with only whitespace cut from both ends; it neither starts nor ends with whitespace; it is empty exactly when the input is all whitespace |
| Text.NatToString | script.js:112-113 | the decimal text of a non-negative integer is all digits, reads back as the number, and has no leading zero |
| Text.IntToString | script.js:112-113 | the decimal text of an integer starts with `-` exactly when it is negative; the rest is all digits, reads back as its magnitude, and has no leading zero unless the number is 0 |
| Text.PadStart2 | script.js:112-113 | `padStart(2,'0')` puts zeros in front of the string until it is at least two long |
| Text.PadKeepsValue | script.js:112-113 | zero-padding a digit string keeps it a digit string denoting the same number |
| Clock.Start | script.js:73-80 | after a start the clock runs; starting while running changes nothing; the remaining time, counters and settings are untouched |
| Clock.Pause | script.js:82-89 | after a pause the clock is stopped; pausing while paused changes nothing; the interval handle is kept; the remaining time is untouched |
| Clock.PauseThenStartResumes | script.js:73-89 | pause followed by start resumes the same period at the same remaining time |
| Clock.StartThenPauseRestores | script.js:73-89 | start followed by pause restores the paused state, apart from the new interval handle |
| Scheduler.Reset | script.js:91-103 | a reset pauses and sets the remaining time to 60 × the current period's configured minutes; the long break applies when the count is a positive multiple of the interval; counters, tasks and log are untouched |
| Scheduler.ResetForgetsClock | script.js:91-103 | the outcome of a reset does not depend on the remaining time or the run flag before it |
| Scheduler.ResetIdempotent | script.js:91-103 | resetting twice is the same as resetting once |
| Scheduler.Switch | script.js:105-108 | a switch flips focus and break and starts the new period at full length, picked from the session count at that moment |
| Scheduler.Skip | script.js:292-295 | skip flips focus and break, pauses, and sets the new period's full length; it never changes the counters, the log or the tasks |
| Scheduler.SkipTwiceIsReset | script.js:292-295 | two skips in a row amount to one reset |
| Scheduler.ApplySettings | script.js:133-142 | new durations, interval and goal are installed; a paused clock restarts the period at its new length; a running clock keeps its remaining time; no counter, task or log entry changes |
| Scheduler.ApplySettingsIdempotent | script.js:133-142 | applying the same settings twice equals applying them once |
| Stats.LogStat | script.js:182-186 | today's count goes up by one, a missing entry counting as 0; every other day's count is unchanged; the only key that can appear is today's |
| Ledger.FindIndex | script.js:62 | `find` stops at the first task with the id, or reports that no task has it |
| Ledger.CreditActive | script.js:61-63 | exactly the first task whose id is the truthy active id gains one pomodoro; every other task is unchanged |
| Ledger.CreditMissingIsNoOp | script.js:61-63 | if no task carries the active id, crediting changes nothing |
| Ledger.AddTask | script.js:297-305 | input that is all whitespace leaves the state as it was; otherwise exactly one task is appended, with the trimmed text, 0 pomodoros, not completed, and the given id |
| Ledger.SelectTask | script.js:160 | clicking the active task clears the selection; clicking any other task selects it; nothing else changes |
| Ledger.SelectTwice | script.js:160 | two clicks on one task restore the selection exactly when it was empty or that task |
| Ledger.RemoveId | script.js:171 | the filter drops every task with the id and keeps every other task as often as it occurred; it removes nothing when no task has the id |
| Ledger.DeleteTask | script.js:171-172 | delete filters the task list and clears the selection exactly when it was the deleted id |
| Ledger.DeletedActiveIsNeverCredited | script.js:171-172 | after the active task is deleted, crediting changes no task |
| Ledger.FirstWithIdAgrees | script.js:62 | a plain first-match search agrees with `FindIndex`: it returns the task at the index found, or nothing when no index is found |
| Ledger.RemoveKeepsFirst | script.js:171 | filtering out one id does not change which task `find` returns for any other id |
| Ledger.DeleteOtherKeepsActive | script.js:171-172 | deleting a different id keeps the active task in the list, and `find` for the active id returns the same task before and after |
| Session.CompleteFocus | script.js:57-65 | a completed focus period increments both counters and today's log entry by one and credits the active task; the log gains no key but today's and every other day's count is unchanged; nothing else changes |
| Session.Expire | script.js:54-70 | any expiry stops the clock and flips focus and break; a focus expiry does the bookkeeping first, so the break length uses the incremented count; a break expiry changes no counter, log entry or task and restarts focus at full length |
| Session.Tick | script.js:50-71 | before zero a tick takes exactly one second off and changes nothing else, never below zero; at zero or below it is the expiry |
| Session.DeleteActiveThenExpire | script.js:61-63 | a focus expiry after the active task was deleted leaves the task list as the delete left it |
| Session.FourthFocusGivesLongBreak | script.js:54-70 | with 3 sessions, interval 4 and a 15-minute long break, the expiry brings the count to 4 and sets 900 seconds, where the pre-increment count would have chosen a short break |
| Session.RunsOutAfterTimeLeftTicks | script.js:50-53 | a period with t seconds left expires on tick t+1, from the same state counted down to zero |
| Session.RunPeriod | script.js:50-71 | starting a period and ticking it out leaves the clock paused in the other kind of period; only a focus period adds a session, a log entry and a long or short break |
| Session.RunPeriodIsTicks | script.js:50-80 | running a period out is the same as starting it and ticking it t+1 times, t being its remaining time |
| Session.Cycle | script.js:54-70 | one focus and one break period run out add exactly one session and one log entry for today, leave every other day's entry unchanged, and come back to focus under the same settings |
| Session.RunCycles | script.js:54-70 | after n focus/break cycles from a focus period the clock is back in focus under the same settings, and the session count, today's count and today's log entry have each grown by exactly n, with every other day's entry unchanged |
| Session.NthFocusBreakLength | script.js:94-101 | the focus period run after n-1 completed cycles makes the count c+n and is followed by a long break exactly when c+n is a positive multiple of the interval |
| Persistence.Save | script.js:250-254 | the snapshot is paused, has no interval handle and no audio element, and equals the state in every other field |
| Persistence.SaveForgetsOnlyTransient | script.js:252 | two states save to the same snapshot exactly when they differ only in the transient fields |
| Persistence.SnapshotIsFixpoint | script.js:252 | saving a snapshot gives the snapshot back |
| Persistence.Load | script.js:256-266 | with nothing stored the state is unchanged; otherwise the stored fields replace it, and today's count is kept only if the log has a positive entry for today, else reset to 0 |
| Persistence.SaveThenLoad | script.js:250-266 | save then load gives a paused clock with the saved remaining time, tasks, log, selection and counters; today's count survives exactly when the log has a session today or it was 0 |
| Persistence.SaveThenLoadSameDay | script.js:256-266 | with a session logged today, load after save returns the snapshot unchanged |
| Persistence.NewDayResetsDailyCount | script.js:260-264 | with no entry for today, a stored daily count of 5 loads as 0 |
| Display.JsRem60 | script.js:113 | `t % 60` has the sign of t, lies strictly between -60 and 60, and differs from t by a multiple of 60 |
| Display.FormatTime | script.js:112-114 | the `mm:ss` text is at least five characters long and starts with a minus sign exactly when the time is negative |
| Display.FormatTimeShape | script.js:111-114 | for 0 ≤ t < 6000 the text is five characters with the colon in the middle |
| Display.FormatTimeDenotes | script.js:112-114 | for a non-negative time both sides of the colon are digit strings, the seconds exactly two; read as decimal numbers, minutes × 60 + seconds gives the time back, with seconds below 60 |
| Display.SessionLabel | script.js:122 | the label is one of "Focus Time", "Long Break" and "Short Break"; it is "Focus Time" exactly in a focus period; outside focus it is "Long Break" exactly when the session count is a positive multiple of the interval; it names the period whose minutes the scheduler picks |
| Display.LabelMatchesReset | script.js:122 | after a reset, the label names the period whose configured minutes set the remaining time |
| Controller.Handle | script.js:289-327 | per event: only the settings form and the two selects change settings; start, pause, Space, skip and reset move only the clock; a firing is absorbed while paused, takes one second off before zero and otherwise stops the clock and flips the period; the task buttons change only the task list and selection; the theme and sound selects change their own field only |
| Controller.Step | script.js:289-327 | start, pause, Space, skip, reset and a firing before zero leave storage as it was; an expiry, a non-blank add, a task click, a delete and every settings change store the snapshot of the new state; a blank add changes nothing; a step that does not save changes no settings, counter, task or log entry |
| Controller.Init | script.js:268-287 | start-up stores the snapshot of the loaded state, then restarts its period at full length, paused, keeping its settings, counters, tasks and log |
| Controller.InitEstablishesInvariant | script.js:268-287 | start-up from a valid stored record yields valid live and stored states |
| Controller.StepPreservesInvariant | script.js:289-327 | every event with non-negative durations keeps the remaining time non-negative and storage a valid snapshot |
| Controller.LoadAfterSave | script.js:250-266 | `loadState` right after any saving step returns a paused clock with the live remaining time, tasks, log, selection and session count |
| Controller.StartupAfterSave | script.js:250-287 | a reload right after any saving step starts up paused in the same period with the live tasks, log, selection and session count, and with the period's full length rather than the live remaining time |
| Controller.InitIgnoresSavedTime | script.js:285 | start-up does not depend on the remaining time stored in the snapshot |
| Controller.PausedIgnoresFiring | script.js:82-89 | with the clock paused no interval is registered, so a firing changes nothing and saves nothing |

## Left out

- `sw.js`, the offline cache worker: promise-based Cache and Fetch plumbing with no state of the timer in it.
- DOM rendering: task list markup, button visibility, `document.title`, the favicon, and the daily-goal progress text.
- The progress ring (script.js:117-120): it uses floating-point division and `Math.PI`. It also uses `timers.break` as the total even during a long break.
- `renderStats`, the seven-day chart (script.js:188-214): it does date arithmetic and floating-point bar heights.
- Sound and notifications: `playSound`, `showNotification`, `Notification.requestPermission`, `toggleAmbientSound` and the ambient select handler. These are side effects on audio elements and browser permissions. Because `saveState` keeps `ambientSound.isPlaying`, a page reloaded while ambient sound played comes back with `isPlaying` true and no element.
- `JSON.stringify` / `JSON.parse` and `localStorage`: storage holds the snapshot record itself. A corrupt record, which makes `JSON.parse` throw, is not represented.
- `parseInt` of the form inputs: NaN is not represented. The settings are any integers.
- JavaScript numbers are IEEE doubles and its strings are UTF-16; the model uses unbounded integers and strings of Unicode scalar values. The two agree only for magnitudes below 2^53 and for well-formed text. Beyond 2^53, `parseInt` loses precision and `timeLeft--` stops changing the value. From 1e21 up, `toString` switches to exponent form.
- The interval's one-second timing and drift: a firing is an event. The interval is registered exactly while `isRunning`, so the controller passes firings to `tick` only then. `Session.Tick` itself, like the code, does not look at `isRunning`.
- The Space shortcut's check that the key press is not in an input or select element: `SpacePressed` stands for a press that passed it.
- Uniqueness of task ids: ids are inputs, and several tasks may share one. Delete removes all of them, and crediting finds the first.
- Controller.StepPreservesInvariant: assumes settings with non-negative durations (`Admissible`). The code accepts negative values, and a negative duration makes the remaining time negative.
- Session.RunCycles: runs every cycle on the same date key, so it says nothing about a period that ends after midnight.
- Ledger.RemoveId: states which tasks are kept and how often, not that their relative order is kept.

=== FILE: clock.dfy ===
/**
 The session clock's run/pause switch (script.js:73-89). Both operations
 are guarded, so a second start or a second pause does nothing, and neither
 touches the remaining time.
 */
module Clock {
  import opened AppState

  /** `startTimer`: `handle` is the id `setInterval` hands back. */
  function Start(s: State, handle: nat): (r: State)
    ensures r.isRunning
    ensures s.isRunning ==> r == s
    ensures !s.isRunning ==> r.timerInterval == Some(handle)
    ensures SameConfig(s, r) && SameProgress(s, r) && SamePeriod(s, r)
  {
    if s.isRunning then s
    else s.(isRunning := true, timerInterval := Some(handle))
  }

  /** `pauseTimer`. `clearInterval` cancels the interval but does not clear the
      stored handle, so `timerInterval` keeps its (now stale) value. */
  function Pause(s: State): (r: State)
    ensures !r.isRunning
    ensures !s.isRunning ==> r == s
    ensures r.timerInterval == s.timerInterval
    ensures SameConfig(s, r) && SameProgress(s, r) && SamePeriod(s, r)
  {
    if !s.isRunning then s else s.(isRunning := false)
  }

  /** Pausing and starting again resumes the period where it stopped. */
  lemma PauseThenStartResumes(s: State, handle: nat)
    ensures var r := Start(Pause(s), handle);
      r.isRunning && SamePeriod(s, r) && SameConfig(s, r) && SameProgress(s, r)
  {
  }

  /** A pause undoes a start exactly, apart from the interval handle. */
  lemma StartThenPauseRestores(s: State, handle: nat)
    requires !s.isRunning
    ensures Pause(Start(s, handle)) == s.(timerInterval := Some(handle))
  {
  }
}

=== FILE: controller.dfy ===
/**
 The page's event handlers wired together (script.js:268-328): each user
 event or interval firing is one step from a `World` (the live state plus
 what local storage holds) to the next, calling `saveState` exactly where
 the handlers do.
 */
module Controller {
  import opened AppState
  import Clock
  import Scheduler
  import Ledger
  import Session
  import Persistence
  import Text

  datatype World = World(app: State, storage: Option<State>)

  /** The events the page reacts to. Handles, ids and today's date key are
      inputs: they come from `setInterval`, `Date.now()` and the clock. */
  datatype Event =
    | StartClicked(handle: nat)
    | PauseClicked
    | SpacePressed(handle: nat)          // start or pause, whichever applies
    | SkipClicked                        // the skip button, also Alt+S
    | ResetPressed                       // Alt+R
    | IntervalFired(today: string)
    | AddClicked(input: string, id: TaskId)
    | TaskClicked(id: TaskId)
    | DeleteClicked(id: TaskId)
    | SettingsChanged(settings: Scheduler.Settings)
    | ThemeChanged(theme: string)
    | SoundChanged(sound: string)

  /** The handlers that end in `saveState`: the expiry branch of `tick`, a
      non-empty add, a task click or delete, the settings and the two selects.
      Start, pause, skip, reset and the plain countdown tick do not save. */
  predicate Saves(w: World, e: Event) {
    match e
    case IntervalFired(_) => w.app.isRunning && w.app.timeLeft <= 0
    case AddClicked(input, _) => !Text.AllWhitespace(input)
    case TaskClicked(_) => true
    case DeleteClicked(_) => true
    case SettingsChanged(_) => true
    case ThemeChanged(_) => true
    case SoundChanged(_) => true
    case _ => false
  }

  /** `r` differs from `s` in the task list and the active task at most. */
  predicate TasksOnly(s: State, r: State) {
    && SamePeriod(s, r) && SameRun(s, r)
    && r.sessionCount == s.sessionCount && r.focusSessionsToday == s.focusSessionsToday
    && r.stats == s.stats
  }

  /** The new live state an event produces. The interval is registered exactly
      while the clock runs (start registers it; pause and expiry clear it), so
      a firing reaches `tick` only while `isRunning`. */
  function Handle(s: State, e: Event): (r: State)
    // only the settings form and the two selects touch the settings
    ensures !e.SettingsChanged? && !e.ThemeChanged? && !e.SoundChanged? ==> SameConfig(s, r)
    ensures match e
      // the clock controls move the clock and nothing that is booked
      case StartClicked(_) => r.isRunning && SamePeriod(s, r) && SameProgress(s, r)
      case PauseClicked => !r.isRunning && SamePeriod(s, r) && SameProgress(s, r)
      case SpacePressed(_) => r.isRunning == !s.isRunning && SamePeriod(s, r) && SameProgress(s, r)
      case SkipClicked => !r.isRunning && r.isFocus == !s.isFocus && SameProgress(s, r)
      case ResetPressed => !r.isRunning && r.isFocus == s.isFocus && SameProgress(s, r)
      // a firing: absorbed while paused, one second off before zero, else the expiry
      case IntervalFired(_) =>
        if !s.isRunning then r == s
        else if s.timeLeft > 0 then r == s.(timeLeft := s.timeLeft - 1)
        else !r.isRunning && r.isFocus == !s.isFocus
      // the task handlers leave the clock and the counters alone
      case AddClicked(_, _) => TasksOnly(s, r)
      case TaskClicked(_) => TasksOnly(s, r)
      case DeleteClicked(_) => TasksOnly(s, r)
      case SettingsChanged(c) =>
        && r.timers == Timers(c.focus, c.brk, c.longBreak)
        && r.longBreakInterval == c.interval && r.dailyGoal == c.dailyGoal
        && SameProgress(s, r)
      // the two selects change their own field only
      case ThemeChanged(theme) => r == s.(theme := theme)
      case SoundChanged(sound) => r == s.(notificationSound := sound)
  {
    match e
    case StartClicked(h) => Clock.Start(s, h)
    case PauseClicked => Clock.Pause(s)
    case SpacePressed(h) => if s.isRunning then Clock.Pause(s) else Clock.Start(s, h)
    case SkipClicked => Scheduler.Skip(s)
    case ResetPressed => Scheduler.Reset(s)
    case IntervalFired(today) => if s.isRunning then Session.Tick(s, today) else s
    case AddClicked(input, id) => Ledger.AddTask(s, input, id)
    case TaskClicked(id) => Ledger.SelectTask(s, id)
    case DeleteClicked(id) => Ledger.DeleteTask(s, id)
    case SettingsChanged(c) => Scheduler.ApplySettings(s, c)
    case ThemeChanged(theme) => s.(theme := theme)
    case SoundChanged(sound) => s.(notificationSound := sound)
  }

  /** One step: the live state moves on, and storage receives the snapshot of
      the new state exactly when the handler saves. */
  function Step(w: World, e: Event): (r: World)
    ensures r.app == Handle(w.app, e)
    // the clock controls and the plain countdown never write storage
    ensures e.StartClicked? || e.PauseClicked? || e.SpacePressed? || e.SkipClicked? || e.ResetPressed?
      ==> r.storage == w.storage
    ensures e.IntervalFired? && !(w.app.isRunning && w.app.timeLeft <= 0) ==> r.storage == w.storage
    // an expiry and every task or settings handler store the new snapshot
    ensures e.IntervalFired? && w.app.isRunning && w.app.timeLeft <= 0
      ==> r.storage == Some(Persistence.Save(r.app))
    ensures e.TaskClicked? || e.DeleteClicked? || e.SettingsChanged? || e.ThemeChanged? || e.SoundChanged?
      ==> r.storage == Some(Persistence.Save(r.app))
    ensures e.AddClicked? && !Text.AllWhitespace(e.input) ==> r.storage == Some(Persistence.Save(r.app))
    ensures e.AddClicked? && Text.AllWhitespace(e.input) ==> r == w
    // a handler that does not save changes no settings, counter, task or log
    ensures !Saves(w, e) ==> SameConfig(w.app, r.app) && SameProgress(w.app, r.app)
  {
    var app := Handle(w.app, e);
    World(app, if Saves(w, e) then Some(Persistence.Save(app)) else w.storage)
  }

  /** Page start-up (script.js:268-287): load, save again through `setTheme`,
      then `resetTimer`, which throws away the saved remaining time. */
  function Init(storage: Option<State>, today: string): (r: World)
    ensures var loaded := Persistence.Load(Initial, storage, today);
      && r.storage == Some(Persistence.Save(loaded))
      && !r.app.isRunning
      && r.app.isFocus == loaded.isFocus
      && r.app.timeLeft == 60 * Scheduler.PeriodMinutes(loaded)
      && SameConfig(loaded, r.app) && SameProgress(loaded, r.app)
  {
    var loaded := Persistence.Load(Initial, storage, today);
    World(Scheduler.Reset(loaded), Some(Persistence.Save(loaded)))
  }

  /** What every reachable world satisfies: the live state is valid and
      storage holds a valid snapshot, if anything. */
  predicate Invariant(w: World) {
    && Valid(w.app)
    && (w.storage.Some? ==> Valid(w.storage.value) && Persistence.IsSnapshot(w.storage.value))
  }

  /** Events that keep durations non-negative; the code does not check this. */
  predicate Admissible(e: Event) {
    e.SettingsChanged? ==> Scheduler.NonNegativeDurations(e.settings)
  }

  lemma InitEstablishesInvariant(storage: Option<State>, today: string)
    requires storage.Some? ==> Valid(storage.value)
    ensures Invariant(Init(storage, today))
  {
  }

  lemma StepPreservesInvariant(w: World, e: Event)
    requires Invariant(w) && Admissible(e)
    ensures Invariant(Step(w, e))
  {
  }

  /** `loadState` right after any saving step returns a paused clock with the
      same remaining time, tasks, log and selection as the live state. */
  lemma LoadAfterSave(w: World, e: Event, any: State, today: string)
    requires Saves(w, e)
    ensures var r := Step(w, e); var back := Persistence.Load(any, r.storage, today);
      && !back.isRunning
      && back.timeLeft == r.app.timeLeft && back.isFocus == r.app.isFocus
      && back.tasks == r.app.tasks && back.stats == r.app.stats
      && back.activeTaskId == r.app.activeTaskId
      && back.sessionCount == r.app.sessionCount
  {
    Persistence.SaveThenLoad(Step(w, e).app, any, today);
  }

  /** A reload right after any saving step starts up paused in the same
      period, with the live tasks, log, selection and session count; the
      remaining time is that period's full length, not the live one. */
  lemma StartupAfterSave(w: World, e: Event, today: string)
    requires Saves(w, e)
    ensures var r := Step(w, e); var a := Init(r.storage, today).app;
      && !a.isRunning && a.isFocus == r.app.isFocus
      && a.tasks == r.app.tasks && a.stats == r.app.stats
      && a.activeTaskId == r.app.activeTaskId
      && a.sessionCount == r.app.sessionCount
      && a.timeLeft == 60 * Scheduler.PeriodMinutes(r.app)
  {
    Persistence.SaveThenLoad(Step(w, e).app, Initial, today);
  }

  /** Start-up discards whatever time was left when the snapshot was taken:
      two snapshots that differ only in the remaining time start up the same. */
  lemma InitIgnoresSavedTime(v: State, t: int, today: string)
    ensures Init(Some(v), today).app == Init(Some(v.(timeLeft := t)), today).app
  {
  }

  /** A firing while paused cannot happen in the page; in the model it is
      absorbed, so nothing changes and nothing is saved. */
  lemma PausedIgnoresFiring(w: World, today: string)
    requires !w.app.isRunning
    ensures Step(w, IntervalFired(today)) == w
  {
  }
}

=== FILE: display.dfy ===
/**
 The two pure pieces of `updateDisplay` (script.js:111-124): the `mm:ss`
 countdown text and the period label.
 */
module Display {
  import opened AppState
  import Text
  import Scheduler

  /** `t % 60` in JavaScript: the remainder takes the sign of the dividend. */
  function JsRem60(t: int): (r: int)
    ensures -60 < r < 60 && (t - r) % 60 == 0
    ensures t >= 0 ==> r >= 0
    ensures t < 0 ==> r <= 0
  {
    if t >= 0 then t % 60 else -((-t) % 60)
  }

  /** The `mm:ss` text (script.js:112-114). `Math.floor(t / 60)` is Dafny's
      `t / 60`, which rounds down for a positive divisor; the seconds use the
      truncating remainder, so a negative `t` shows minus signs. */
  function FormatTime(t: int): (r: string)
    ensures |r| >= 5 && (r[0] == '-' <==> t < 0)
  {
    var mm := Text.PadStart2(Text.IntToString(t / 60));
    assert mm[0] == '-' <==> t < 0;
    mm + ":" + Text.PadStart2(Text.IntToString(JsRem60(t)))
  }

  /** For a non-negative time the text is the padded minutes, a colon and the
      padded seconds, where the seconds are always two digits. */
  lemma FormatTimeParts(t: int)
    requires t >= 0
    ensures var mm := Text.PadStart2(Text.NatToString(t / 60));
      var ss := Text.PadStart2(Text.NatToString(t % 60));
      && FormatTime(t) == mm + ":" + ss
      && |ss| == 2 && |mm| >= 2
      && (t < 6000 ==> |mm| == 2)
  {
    assert JsRem60(t) == t % 60;
    assert 0 <= t % 60 < 60;
    assert t < 6000 ==> t / 60 < 100;
  }

  /** Two two-character parts joined by a colon make five characters with the
      colon in the middle. */
  lemma JoinShape(mm: string, ss: string)
    requires |mm| == 2 && |ss| == 2
    ensures |mm + ":" + ss| == 5 && (mm + ":" + ss)[2] == ':'
  {
  }

  /** Below 100 minutes the countdown text is exactly `mm:ss`. */
  lemma FormatTimeShape(t: int)
    requires 0 <= t < 6000
    ensures |FormatTime(t)| == 5 && FormatTime(t)[2] == ':'
  {
    FormatTimeParts(t);
    JoinShape(Text.PadStart2(Text.NatToString(t / 60)), Text.PadStart2(Text.NatToString(t % 60)));
  }

  /** Read as decimal numbers, the two sides of the colon give the time back:
      minutes × 60 + seconds is `t`, and the seconds stay below 60. */
  lemma FormatTimeDenotes(t: int)
    requires t >= 0
    ensures var mm := Text.PadStart2(Text.NatToString(t / 60));
      var ss := Text.PadStart2(Text.NatToString(t % 60));
      && FormatTime(t) == mm + ":" + ss
      && Text.AllDigits(mm) && Text.AllDigits(ss) && |ss| == 2
      && Text.DigitsValue(mm) * 60 + Text.DigitsValue(ss) == t
      && Text.DigitsValue(ss) < 60
  {
    FormatTimeParts(t);
    Text.PadKeepsValue(Text.NatToString(t / 60));
    Text.PadKeepsValue(Text.NatToString(t % 60));
  }

  /** The period label (script.js:122). */
  function SessionLabel(s: State): (r: string)
    ensures r == "Focus Time" || r == "Long Break" || r == "Short Break"
    ensures r == "Focus Time" <==> s.isFocus
    ensures !s.isFocus ==> (r == "Long Break" <==> Scheduler.IsLongBreak(s.sessionCount, s.longBreakInterval))
    ensures LabelMinutes(r, s.timers) == Scheduler.PeriodMinutes(s)
  {
    if s.isFocus then "Focus Time"
    else if Scheduler.IsLongBreak(s.sessionCount, s.longBreakInterval) then "Long Break"
    else "Short Break"
  }

  /** The configured minutes a label names. */
  function LabelMinutes(name: string, timers: Timers): int {
    if name == "Focus Time" then timers.focus
    else if name == "Long Break" then timers.longBreak
    else timers.brk
  }

  /** Right after a reset, the label shown names the period whose configured
      length the clock was set to. */
  lemma LabelMatchesReset(s: State)
    ensures var r := Scheduler.Reset(s); r.timeLeft == 60 * LabelMinutes(SessionLabel(r), r.timers)
  {
  }
}

=== FILE: ledger.dfy ===
/**
 The task ledger: adding a task (script.js:297-305), selecting the active
 task (script.js:160), deleting one (script.js:171-172) and crediting the
 active task when a focus period ends (script.js:61-63).
 */
module Ledger {
  import opened AppState
  import Text

  /** Position `k` holds the first task whose id is `id`. */
  predicate IsFirstWithId(tasks: seq<Task>, k: int, id: TaskId) {
    && 0 <= k < |tasks|
    && tasks[k].id == id
    && forall j :: 0 <= j < k ==> tasks[j].id != id
  }

  /** Where `tasks.find(t => t.id === id)` stops, if anywhere. */
  function FindIndex(tasks: seq<Task>, id: TaskId): (r: Option<nat>)
    ensures r.Some? ==> IsFirstWithId(tasks, r.value, id)
    ensures r.None? ==> forall k :: 0 <= k < |tasks| ==> tasks[k].id != id
    decreases |tasks|
  {
    if tasks == [] then None
    else if tasks[0].id == id then Some(0)
    else
      match FindIndex(tasks[1..], id)
      case None => None
      case Some(i) =>
        assert forall j :: 1 <= j <= i ==> tasks[j] == tasks[1..][j - 1];
        Some(i + 1)
  }

  /** JavaScript truthiness of `activeTaskId`: `null` and the id 0 are falsy. */
  predicate IsTruthy(active: Option<TaskId>) {
    active.Some? && active.value != 0
  }

  /** `after` is `before` with one more pomodoro on the first task whose id is
      the (truthy) active id, and nothing else changed. */
  predicate CreditedOnce(before: seq<Task>, after: seq<Task>, active: Option<TaskId>) {
    && |after| == |before|
    && forall k :: 0 <= k < |before| ==>
         after[k] == if IsTruthy(active) && IsFirstWithId(before, k, active.value)
                     then before[k].(pomodoros := before[k].pomodoros + 1)
                     else before[k]
  }

  /** The crediting step of a focus expiry. */
  function CreditActive(tasks: seq<Task>, active: Option<TaskId>): (r: seq<Task>)
    ensures CreditedOnce(tasks, r, active)
  {
    if !IsTruthy(active) then tasks
    else
      match FindIndex(tasks, active.value)
      case None => tasks
      case Some(i) => tasks[i := tasks[i].(pomodoros := tasks[i].pomodoros + 1)]
  }

  /** With no task carrying the active id, crediting changes nothing. */
  lemma CreditMissingIsNoOp(tasks: seq<Task>, active: Option<TaskId>)
    requires active.Some? ==> forall k :: 0 <= k < |tasks| ==> tasks[k].id != active.value
    ensures CreditActive(tasks, active) == tasks
  {
  }

  /** The add button: the trimmed input becomes a new, unfinished task with no
      pomodoros at the end of the list, unless it is empty after trimming. */
  function AddTask(s: State, input: string, freshId: TaskId): (r: State)
    ensures r.tasks == s.tasks <==> Text.AllWhitespace(input)
    ensures Text.AllWhitespace(input) ==> r == s
    ensures !Text.AllWhitespace(input) ==>
      var text := Text.Trim(input);
      && r.tasks == s.tasks + [Task(freshId, text, 0, false)]
      && text != [] && !Text.IsJsWhitespace(text[0]) && !Text.IsJsWhitespace(text[|text| - 1])
    ensures r == s.(tasks := r.tasks)
  {
    var text := Text.Trim(input);
    if text != [] then s.(tasks := s.tasks + [Task(freshId, text, 0, false)]) else s
  }

  /** A click on a task: select it, or deselect it when it is already active. */
  function SelectTask(s: State, id: TaskId): (r: State)
    ensures s.activeTaskId == Some(id) ==> r.activeTaskId == None
    ensures s.activeTaskId != Some(id) ==> r.activeTaskId == Some(id)
    ensures r == s.(activeTaskId := r.activeTaskId)
  {
    s.(activeTaskId := if s.activeTaskId == Some(id) then None else Some(id))
  }

  /** Two clicks on the same task restore the selection exactly when the
      selection was empty or that task to begin with. */
  lemma SelectTwice(s: State, id: TaskId)
    ensures SelectTask(SelectTask(s, id), id) == s <==> (s.activeTaskId == None || s.activeTaskId == Some(id))
  {
  }

  /** Number of tasks carrying `id`. */
  function CountId(tasks: seq<Task>, id: TaskId): nat
    decreases |tasks|
  {
    if tasks == [] then 0
    else (if tasks[0].id == id then 1 else 0) + CountId(tasks[1..], id)
  }

  /** `tasks.filter(t => t.id !== id)`: every task with that id goes, every
      other task stays, as often as it was there. */
  function RemoveId(tasks: seq<Task>, id: TaskId): (r: seq<Task>)
    ensures forall k :: 0 <= k < |r| ==> r[k].id != id
    ensures forall t :: multiset(r)[t] == if t.id == id then 0 else multiset(tasks)[t]
    ensures |r| + CountId(tasks, id) == |tasks|
    ensures CountId(tasks, id) == 0 ==> r == tasks
    decreases |tasks|
  {
    if tasks == [] then []
    else
      var rest := RemoveId(tasks[1..], id);
      assert tasks == [tasks[0]] + tasks[1..];
      if tasks[0].id == id then rest else [tasks[0]] + rest
  }

  /** The delete button: drop every task with that id, and clear the selection
      exactly when it was that id. */
  function DeleteTask(s: State, id: TaskId): (r: State)
    ensures r.tasks == RemoveId(s.tasks, id)
    ensures s.activeTaskId == Some(id) ==> r.activeTaskId == None
    ensures s.activeTaskId != Some(id) ==> r.activeTaskId == s.activeTaskId
    ensures r == s.(tasks := r.tasks, activeTaskId := r.activeTaskId)
  {
    s.(tasks := RemoveId(s.tasks, id),
       activeTaskId := if s.activeTaskId == Some(id) then None else s.activeTaskId)
  }

  /** After the active task is deleted, crediting finds nothing to credit. */
  lemma DeletedActiveIsNeverCredited(s: State, id: TaskId)
    requires s.activeTaskId == Some(id)
    ensures var d := DeleteTask(s, id); CreditActive(d.tasks, d.activeTaskId) == d.tasks
  {
  }

  /** The task `find` returns, as a value. */
  function FirstWithId(tasks: seq<Task>, a: TaskId): Option<Task>
    decreases |tasks|
  {
    if tasks == [] then None
    else if tasks[0].id == a then Some(tasks[0])
    else FirstWithId(tasks[1..], a)
  }

  /** `FirstWithId` is the task at the position `FindIndex` reports. */
  lemma {:induction false} FirstWithIdAgrees(tasks: seq<Task>, a: TaskId)
    ensures match FindIndex(tasks, a)
      case Some(k) => FirstWithId(tasks, a) == Some(tasks[k])
      case None => FirstWithId(tasks, a) == None
    decreases |tasks|
  {
    if tasks != [] && tasks[0].id != a {
      FirstWithIdAgrees(tasks[1..], a);
    }
  }

  /** Filtering out one id does not change which task `find` returns for any
      other id: the filter keeps the surviving tasks in their order. */
  lemma {:induction false} RemoveKeepsFirst(tasks: seq<Task>, id: TaskId, a: TaskId)
    requires a != id
    ensures FirstWithId(RemoveId(tasks, id), a) == FirstWithId(tasks, a)
    decreases |tasks|
  {
    if tasks != [] {
      var rest := RemoveId(tasks[1..], id);
      RemoveKeepsFirst(tasks[1..], id, a);
      if tasks[0].id != id {
        var kept := [tasks[0]] + rest;
        assert RemoveId(tasks, id) == kept;
        assert kept[1..] == rest;
      }
    }
  }

  /** Deleting some other task keeps the active one findable, and `find`
      returns the same task as before, so whichever task would have been
      credited before is the one credited after. */
  lemma DeleteOtherKeepsActive(s: State, id: TaskId)
    requires s.activeTaskId.Some? && s.activeTaskId.value != id
    requires exists k :: 0 <= k < |s.tasks| && s.tasks[k].id == s.activeTaskId.value
    ensures var d := DeleteTask(s, id);
      var before := FindIndex(s.tasks, s.activeTaskId.value);
      var after := FindIndex(d.tasks, s.activeTaskId.value);
      && before.Some? && after.Some?
      && d.tasks[after.value] == s.tasks[before.value]
  {
    var a := s.activeTaskId.value;
    RemoveKeepsFirst(s.tasks, id, a);
    FirstWithIdAgrees(s.tasks, a);
    FirstWithIdAgrees(RemoveId(s.tasks, id), a);
  }
}

=== FILE: persistence.dfy ===
/**
 The persisted snapshot (script.js:250-266). `saveState` copies the state with
 the live handles stripped and the clock marked paused; `loadState` copies a
 stored snapshot back over the state and then applies the day-rollover rule.
 The JSON encoding and the storage API are not modelled: the stored value is
 the snapshot record itself.
 */
module Persistence {
  import opened AppState
  import Stats

  /** A state with nothing live in it: paused, no interval handle, no audio
      element. */
  predicate IsSnapshot(s: State) {
    !s.isRunning && s.timerInterval.None? && s.ambient.element.None?
  }

  /** `saveState`: the state field for field, except the three transient
      fields. Note that `ambient.isPlaying` is kept as it is. */
  function Save(s: State): (r: State)
    ensures IsSnapshot(r)
    ensures SameProgress(s, r) && SamePeriod(s, r)
    ensures r.timers == s.timers && r.longBreakInterval == s.longBreakInterval
    ensures r.dailyGoal == s.dailyGoal && r.theme == s.theme && r.notificationSound == s.notificationSound
    ensures r.ambient.id == s.ambient.id && r.ambient.isPlaying == s.ambient.isPlaying
    ensures Valid(s) ==> Valid(r)
  {
    s.(isRunning := false, timerInterval := None, ambient := s.ambient.(element := None))
  }

  /** Two states save to the same snapshot exactly when they differ at most
      in the transient fields. */
  lemma SaveForgetsOnlyTransient(a: State, b: State)
    ensures Save(a) == Save(b) <==>
      && SameProgress(a, b) && SamePeriod(a, b)
      && a.timers == b.timers && a.longBreakInterval == b.longBreakInterval
      && a.dailyGoal == b.dailyGoal && a.theme == b.theme
      && a.notificationSound == b.notificationSound
      && a.ambient.id == b.ambient.id && a.ambient.isPlaying == b.ambient.isPlaying
  {
    if Save(a) == Save(b) {
      assert Save(a).ambient == Save(b).ambient;
    }
  }

  /** A snapshot saves to itself. */
  lemma SnapshotIsFixpoint(s: State)
    requires IsSnapshot(s)
    ensures Save(s) == s
  {
  }

  /** `!state.stats[today]` is false: today has a positive count. */
  predicate HasSessionsOn(stats: map<string, nat>, today: string) {
    Stats.Count(stats, today) > 0
  }

  /** `loadState`. With nothing stored the state is left alone. Otherwise the
      stored fields replace the state's, and today's focus-period count is
      kept only when the log has a positive entry for today; a missing or zero
      entry is read as a new day and the count drops to 0. */
  function Load(s: State, saved: Option<State>, today: string): (r: State)
    ensures saved.None? ==> r == s
    ensures saved.Some? ==>
      var v := saved.value;
      && SameConfig(v, r) && SamePeriod(v, r) && SameRun(v, r)
      && r.sessionCount == v.sessionCount && r.stats == v.stats
      && r.tasks == v.tasks && r.activeTaskId == v.activeTaskId
      && (HasSessionsOn(v.stats, today) ==> r.focusSessionsToday == v.focusSessionsToday)
      && (!HasSessionsOn(v.stats, today) ==> r.focusSessionsToday == 0)
  {
    match saved
    case None => s
    case Some(v) =>
      if HasSessionsOn(v.stats, today) then v else v.(focusSessionsToday := 0)
  }

  /** Saving and loading back gives a paused clock at the saved remaining
      time, with the tasks, the log, the selection and the counters intact;
      today's count survives exactly when it was 0 anyway or the log has a
      session for today. The loaded state is itself a snapshot. */
  lemma SaveThenLoad(s: State, any: State, today: string)
    ensures var r := Load(any, Some(Save(s)), today);
      && !r.isRunning && IsSnapshot(r)
      && r.timeLeft == s.timeLeft && r.isFocus == s.isFocus
      && r.tasks == s.tasks && r.stats == s.stats
      && r.activeTaskId == s.activeTaskId && r.sessionCount == s.sessionCount
      && r.timers == s.timers && r.longBreakInterval == s.longBreakInterval
      && (r.focusSessionsToday == s.focusSessionsToday <==>
          (HasSessionsOn(s.stats, today) || s.focusSessionsToday == 0))
  {
  }

  /** When today already has a logged session, a save and load is lossless
      apart from the transient fields. */
  lemma SaveThenLoadSameDay(s: State, any: State, today: string)
    requires HasSessionsOn(s.stats, today)
    ensures Load(any, Some(Save(s)), today) == Save(s)
  {
  }

  /** The day-rollover example: no log entry for today resets a nonzero
      stored count to 0. */
  lemma NewDayResetsDailyCount(s: State, v: State, today: string)
    requires today !in v.stats && v.focusSessionsToday == 5
    ensures Load(s, Some(v), today).focusSessionsToday == 0
  {
  }
}

=== FILE: scheduler.dfy ===
/**
 The session scheduler (script.js:91-108, 133-142, 292-295): picks the length
 of the next period, flips between focus and break, and installs new settings.
 */
module Scheduler {
  import opened AppState
  import Clock

  /** The long-break test of script.js:97. JavaScript's `%` truncates towards
      zero where Dafny's is Euclidean, but the two agree on whether the
      remainder is zero; `n % 0` is NaN in JavaScript, never `=== 0`. */
  predicate IsLongBreak(sessionCount: nat, interval: int) {
    sessionCount > 0 && interval != 0 && sessionCount % interval == 0
  }

  /** The configured length, in minutes, of the period `s` is in. */
  function PeriodMinutes(s: State): int {
    if s.isFocus then s.timers.focus
    else if IsLongBreak(s.sessionCount, s.longBreakInterval) then s.timers.longBreak
    else s.timers.brk
  }

  /** `resetTimer`: pause, then restart the current period at its full length. */
  function Reset(s: State): (r: State)
    ensures !r.isRunning && r.timerInterval == s.timerInterval
    ensures r.isFocus == s.isFocus && SameConfig(s, r) && SameProgress(s, r)
    ensures r.timeLeft == 60 * PeriodMinutes(s)
    ensures Valid(s) ==> Valid(r)
  {
    Clock.Pause(s).(timeLeft := PeriodMinutes(s) * 60)
  }

  /** A reset forgets the remaining time and the run flag: two states that
      differ only there reset to the same state. */
  lemma ResetForgetsClock(a: State, b: State)
    requires SameConfig(a, b) && SameProgress(a, b)
    requires a.isFocus == b.isFocus && a.timerInterval == b.timerInterval
    ensures Reset(a) == Reset(b)
  {
  }

  lemma ResetIdempotent(s: State)
    ensures Reset(Reset(s)) == Reset(s)
  {
  }

  /** `switchSession`: flip focus/break, then reset. The break length is
      chosen from the session count as it stands at the moment of the switch. */
  function Switch(s: State): (r: State)
    ensures r.isFocus == !s.isFocus && !r.isRunning && r.timerInterval == s.timerInterval
    ensures SameConfig(s, r) && SameProgress(s, r)
    ensures s.isFocus ==>
      r.timeLeft == 60 * (if IsLongBreak(s.sessionCount, s.longBreakInterval) then s.timers.longBreak else s.timers.brk)
    ensures !s.isFocus ==> r.timeLeft == 60 * s.timers.focus
    ensures Valid(s) ==> Valid(r)
  {
    Reset(s.(isFocus := !s.isFocus))
  }

  /** The skip button: pause, then switch. No session is counted. */
  function Skip(s: State): (r: State)
    ensures r.isFocus == !s.isFocus && !r.isRunning && r.timerInterval == s.timerInterval
    ensures SameConfig(s, r) && SameProgress(s, r)
    ensures r.timeLeft == 60 * PeriodMinutes(r)
    ensures Valid(s) ==> Valid(r)
  {
    Switch(Clock.Pause(s))
  }

  /** Skipping twice lands in the same kind of period, restarted: a reset. */
  lemma SkipTwiceIsReset(s: State)
    ensures Skip(Skip(s)) == Reset(s)
  {
  }

  /** The values the settings form holds, already parsed. */
  datatype Settings = Settings(focus: int, brk: int, longBreak: int, interval: int, dailyGoal: int)

  predicate NonNegativeDurations(c: Settings) {
    c.focus >= 0 && c.brk >= 0 && c.longBreak >= 0
  }

  /** `applySettings`: install the new values; restart the period at its new
      length only when the clock is paused, so a running period keeps its
      remaining time. */
  function ApplySettings(s: State, c: Settings): (r: State)
    ensures r.timers == Timers(c.focus, c.brk, c.longBreak)
    ensures r.longBreakInterval == c.interval && r.dailyGoal == c.dailyGoal
    ensures r.theme == s.theme && r.notificationSound == s.notificationSound && r.ambient == s.ambient
    ensures SameProgress(s, r) && SameRun(s, r) && r.isFocus == s.isFocus
    ensures s.isRunning ==> r.timeLeft == s.timeLeft
    ensures !s.isRunning ==> r.timeLeft == 60 * PeriodMinutes(r)
    ensures Valid(s) && NonNegativeDurations(c) ==> Valid(r)
  {
    var installed := s.(
      timers := Timers(c.focus, c.brk, c.longBreak),
      longBreakInterval := c.interval,
      dailyGoal := c.dailyGoal);
    if !installed.isRunning then Reset(installed) else installed
  }

  /** Applying the same settings twice is the same as applying them once. */
  lemma ApplySettingsIdempotent(s: State, c: Settings)
    ensures ApplySettings(ApplySettings(s, c), c) == ApplySettings(s, c)
  {
  }
}

=== FILE: session.dfy ===
/**
 The once-a-second tick (script.js:50-71) and what happens when a period runs
 out: the bookkeeping of a completed focus period, then the switch to the
 next period. Playing the sound, the notification and the save that follow
 are side effects; the save is modelled in the controller.
 */
module Session {
  import opened AppState
  import Clock
  import Scheduler
  import Stats
  import Ledger

  /** What a completed focus period records (script.js:58-64): both counters
      go up by one, today's log entry goes up by one, the active task is
      credited. */
  function CompleteFocus(s: State, today: string): (r: State)
    ensures r.sessionCount == s.sessionCount + 1
    ensures r.focusSessionsToday == s.focusSessionsToday + 1
    ensures Stats.Count(r.stats, today) == Stats.Count(s.stats, today) + 1
    ensures forall d :: d != today ==> Stats.Count(r.stats, d) == Stats.Count(s.stats, d)
    ensures r.stats.Keys == s.stats.Keys + {today}
    ensures Ledger.CreditedOnce(s.tasks, r.tasks, s.activeTaskId)
    ensures r.activeTaskId == s.activeTaskId
    ensures SameConfig(s, r) && SamePeriod(s, r) && SameRun(s, r)
  {
    s.(sessionCount := s.sessionCount + 1,
       focusSessionsToday := s.focusSessionsToday + 1,
       stats := Stats.LogStat(s.stats, today),
       tasks := Ledger.CreditActive(s.tasks, s.activeTaskId))
  }

  /** The length, in minutes, of the break that follows the focus period that
      brings the session count to `count`. */
  function BreakMinutes(s: State, count: nat): int {
    Scheduler.PeriodMinutes(s.(isFocus := false, sessionCount := count))
  }

  /** The expiry branch of `tick`. The clock stops, so the next period waits
      for a start. A focus period is booked before the switch, so the break
      length is chosen from the already incremented session count. A break
      period changes no counter, log entry or task. */
  function Expire(s: State, today: string): (r: State)
    ensures !r.isRunning && r.isFocus == !s.isFocus
    ensures r.timerInterval == s.timerInterval && SameConfig(s, r)
    ensures s.isFocus ==>
      && r.sessionCount == s.sessionCount + 1
      && r.focusSessionsToday == s.focusSessionsToday + 1
      && Stats.Count(r.stats, today) == Stats.Count(s.stats, today) + 1
      && (forall d :: d != today ==> Stats.Count(r.stats, d) == Stats.Count(s.stats, d))
      && r.stats.Keys == s.stats.Keys + {today}
      && Ledger.CreditedOnce(s.tasks, r.tasks, s.activeTaskId)
      && r.activeTaskId == s.activeTaskId
      && r.timeLeft == 60 * BreakMinutes(s, s.sessionCount + 1)
    ensures !s.isFocus ==> SameProgress(s, r) && r.timeLeft == 60 * s.timers.focus
    ensures Valid(s.(timeLeft := 0)) ==> Valid(r)
  {
    var stopped := s.(isRunning := false);
    var booked := if stopped.isFocus then CompleteFocus(stopped, today) else stopped;
    Scheduler.Switch(booked)
  }

  /** `tick`. Before zero it takes exactly one second off and touches nothing
      else, so the countdown never goes below zero; at zero the period expires. */
  function Tick(s: State, today: string): (r: State)
    ensures s.timeLeft > 0 ==>
      && r.timeLeft == s.timeLeft - 1 && r.timeLeft >= 0
      && r.isFocus == s.isFocus
      && SameConfig(s, r) && SameProgress(s, r) && SameRun(s, r)
    ensures s.timeLeft <= 0 ==> r == Expire(s, today)
    ensures Valid(s) ==> Valid(r)
  {
    if s.timeLeft > 0 then s.(timeLeft := s.timeLeft - 1) else Expire(s, today)
  }

  /** Deleting the active task and then finishing a focus period credits no
      task: the task list comes out of the expiry as the delete left it. */
  lemma DeleteActiveThenExpire(s: State, id: TaskId, today: string)
    requires s.activeTaskId == Some(id) && s.isFocus && s.timeLeft <= 0
    ensures var d := Ledger.DeleteTask(s, id); Tick(d, today).tasks == d.tasks
  {
    Ledger.DeletedActiveIsNeverCredited(s, id);
  }

  /** The worked example of a fourth focus period with an interval of 4: the
      count reaches 4 and a 15-minute long break follows, although the count
      before the increment (3) would have picked a short break. */
  lemma FourthFocusGivesLongBreak(s: State, today: string)
    requires s.timers == Timers(25, 5, 15) && s.longBreakInterval == 4
    requires s.sessionCount == 3 && s.isFocus && s.timeLeft == 0
    ensures var r := Tick(s, today);
      && r.sessionCount == 4 && !r.isFocus && !r.isRunning && r.timeLeft == 900
      && r.focusSessionsToday == s.focusSessionsToday + 1
      && Stats.Count(r.stats, today) == Stats.Count(s.stats, today) + 1
      && !Scheduler.IsLongBreak(s.sessionCount, s.longBreakInterval)
  {
  }

  /** `n` ticks in a row. */
  function Ticks(s: State, n: nat, today: string): State
    decreases n
  {
    if n == 0 then s else Ticks(Tick(s, today), n - 1, today)
  }

  /** A period with `t` seconds left runs out on the (t+1)-th tick, and the
      state it expires from is the one it started in, counted down to zero. */
  lemma {:induction false} RunsOutAfterTimeLeftTicks(s: State, today: string)
    requires s.timeLeft >= 0
    ensures Ticks(s, s.timeLeft + 1, today) == Expire(s.(timeLeft := 0), today)
    decreases s.timeLeft
  {
    if s.timeLeft > 0 {
      var s' := Tick(s, today);
      assert s' == s.(timeLeft := s.timeLeft - 1);
      RunsOutAfterTimeLeftTicks(s', today);
      assert s'.(timeLeft := 0) == s.(timeLeft := 0);
    }
  }

  /** Press start and let the period run out; by `RunsOutAfterTimeLeftTicks`
      this is where `timeLeft + 1` ticks after the start end up. The next
      period waits for another start. */
  function RunPeriod(s: State, handle: nat, today: string): (r: State)
    ensures Valid(s) ==> Valid(r)
    ensures !r.isRunning && r.isFocus == !s.isFocus && SameConfig(s, r)
    ensures s.isFocus ==>
      && r.sessionCount == s.sessionCount + 1
      && r.focusSessionsToday == s.focusSessionsToday + 1
      && Stats.Count(r.stats, today) == Stats.Count(s.stats, today) + 1
      && (forall d :: d != today ==> Stats.Count(r.stats, d) == Stats.Count(s.stats, d))
      && r.timeLeft == 60 * BreakMinutes(s, s.sessionCount + 1)
    ensures !s.isFocus ==> SameProgress(s, r) && r.timeLeft == 60 * s.timers.focus
  {
    var s0 := Clock.Start(s, handle).(timeLeft := 0);
    assert SameConfig(s, s0) && SameProgress(s, s0) && s0.isFocus == s.isFocus;
    Expire(s0, today)
  }

  /** `RunPeriod` is exactly where `timeLeft + 1` ticks after pressing start
      end up. */
  lemma RunPeriodIsTicks(s: State, handle: nat, today: string)
    requires s.timeLeft >= 0
    ensures RunPeriod(s, handle, today) == Ticks(Clock.Start(s, handle), s.timeLeft + 1, today)
  {
    RunsOutAfterTimeLeftTicks(Clock.Start(s, handle), today);
  }

  /** What `n` full focus-then-break cycles from the focus period `s` leave:
      back in a focus period under the same settings, with `n` more sessions,
      `n` more for today and `n` more in today's log entry; no other day's
      log entry changes. */
  ghost predicate BooksSessions(s: State, r: State, n: nat, today: string) {
    && r.isFocus && SameConfig(s, r)
    && r.sessionCount == s.sessionCount + n
    && r.focusSessionsToday == s.focusSessionsToday + n
    && Stats.Count(r.stats, today) == Stats.Count(s.stats, today) + n
    && (forall d :: d != today ==> Stats.Count(r.stats, d) == Stats.Count(s.stats, d))
  }

  /** One focus period followed by one break period, both run to the end. */
  function Cycle(s: State, handle: nat, today: string): (r: State)
    ensures s.isFocus ==> BooksSessions(s, r, 1, today)
    ensures Valid(s) ==> Valid(r)
  {
    RunPeriod(RunPeriod(s, handle, today), handle, today)
  }

  /** `n` full focus-then-break cycles in a row, all on the same day. Every
      cycle books exactly one focus period, and the settings never change. */
  method RunCycles(s: State, n: nat, handle: nat, today: string) returns (r: State)
    ensures s.isFocus ==> BooksSessions(s, r, n, today)
    ensures Valid(s) ==> Valid(r)
  {
    r := s;
    var i := 0;
    while i < n
      invariant i <= n
      invariant s.isFocus ==> BooksSessions(s, r, i, today)
      invariant Valid(s) ==> Valid(r)
    {
      r := Cycle(r, handle, today);
      i := i + 1;
    }
  }

  /** The focus period that follows `n - 1` completed cycles is the n-th: it
      brings the session count to `s.sessionCount + n` and is followed by a
      long break exactly when that count is a positive multiple of the
      interval. */
  lemma NthFocusBreakLength(s: State, r: State, n: nat, handle: nat, today: string)
    requires n >= 1 && BooksSessions(s, r, n - 1, today)
    ensures var b := RunPeriod(r, handle, today);
      && b.sessionCount == s.sessionCount + n
      && !b.isFocus && !b.isRunning
      && b.timeLeft == 60 * BreakMinutes(s, s.sessionCount + n)
  {
  }
}

=== FILE: state.dfy ===
/**
 The application-state record of the Pomodoro timer (script.js:3-19), as an
 immutable value. Every transition of the model maps one `State` to the next.
 */
module AppState {

  datatype Option<+T> = None | Some(value: T)

  /** Period lengths in minutes, as the settings form's `parseInt` left them:
      any integer, nothing clamps them. */
  datatype Timers = Timers(focus: int, brk: int, longBreak: int)

  /** Task ids are `Date.now()` values, handed in by the caller. */
  type TaskId = nat

  datatype Task = Task(id: TaskId, text: string, pomodoros: nat, completed: bool)

  /** The ambient-sound sub-record; `element` stands for the handle of the
      audio element that is playing, if any. */
  datatype Ambient = Ambient(id: string, isPlaying: bool, element: Option<nat>)

  datatype State = State(
    timers: Timers,
    longBreakInterval: int,
    timeLeft: int,              // seconds left in the current period
    isFocus: bool,
    isRunning: bool,
    sessionCount: nat,          // completed focus periods, ever
    focusSessionsToday: nat,
    timerInterval: Option<nat>, // handle of the repeating one-second interval
    dailyGoal: int,
    theme: string,
    notificationSound: string,
    ambient: Ambient,
    tasks: seq<Task>,
    activeTaskId: Option<TaskId>,
    stats: map<string, nat>)    // 'YYYY-MM-DD' -> completed focus periods

  /** The state the page starts from before anything is loaded. */
  const Initial: State := State(
    Timers(25, 5, 15), 4, 25 * 60, true, false, 0, 0, None, 8,
    "default", "ding", Ambient("none", false, None), [], None, map[])

  /** The fields of a `State` fall into four groups; the transitions are
      specified by which groups they leave alone. */
  predicate SameConfig(a: State, b: State) {
    && a.timers == b.timers
    && a.longBreakInterval == b.longBreakInterval
    && a.dailyGoal == b.dailyGoal
    && a.theme == b.theme
    && a.notificationSound == b.notificationSound
    && a.ambient == b.ambient
  }

  predicate SameProgress(a: State, b: State) {
    && a.sessionCount == b.sessionCount
    && a.focusSessionsToday == b.focusSessionsToday
    && a.stats == b.stats
    && a.tasks == b.tasks
    && a.activeTaskId == b.activeTaskId
  }

  predicate SamePeriod(a: State, b: State) {
    a.timeLeft == b.timeLeft && a.isFocus == b.isFocus
  }

  predicate SameRun(a: State, b: State) {
    a.isRunning == b.isRunning && a.timerInterval == b.timerInterval
  }

  /** Durations are non-negative and the countdown has not gone below zero.
      The code never enforces the first half (the settings form can install a
      negative duration); the second half follows from it. */
  predicate Valid(s: State) {
    && s.timeLeft >= 0
    && s.timers.focus >= 0
    && s.timers.brk >= 0
    && s.timers.longBreak >= 0
  }
}

=== FILE: stats.dfy ===
/**
 The statistics log (script.js:182-186): completed focus periods per day.
 The day key is an input; the code derives it from the UTC date.
 */
module Stats {

  /** `stats[day] || 0`: a missing day counts as zero. */
  function Count(stats: map<string, nat>, day: string): nat {
    if day in stats then stats[day] else 0
  }

  /** `logStat`: one more completed focus period on `today`; every other day's
      entry, present or absent, stays as it was. */
  function LogStat(stats: map<string, nat>, today: string): (r: map<string, nat>)
    ensures Count(r, today) == Count(stats, today) + 1
    ensures r.Keys == stats.Keys + {today}
    ensures forall d :: d != today ==> Count(r, d) == Count(stats, d)
  {
    stats[today := Count(stats, today) + 1]
  }
}

=== FILE: text.dfy ===
/**
 The JavaScript string primitives the timer leans on, stated over `string`
 (a sequence of Unicode scalar values): `String.prototype.trim`, the decimal
 `toString` of an integer and `padStart(2, '0')`.
 */
module Text {

  /** The WhiteSpace and LineTerminator code points of ECMAScript: exactly
      what `trim` strips from either end of a string. */
  predicate IsJsWhitespace(c: char) {
    || c == '\t' || c == '\n' || c == '\U{000B}' || c == '\U{000C}' || c == '\r'
    || c == ' ' || c == '\U{00A0}' || c == '\U{1680}'
    || ('\U{2000}' <= c <= '\U{200A}')
    || c == '\U{2028}' || c == '\U{2029}' || c == '\U{202F}' || c == '\U{205F}'
    || c == '\U{3000}' || c == '\U{FEFF}'
  }

  predicate AllWhitespace(s: string) {
    forall k :: 0 <= k < |s| ==> IsJsWhitespace(s[k])
  }

  /** The first position at or after `i` that does not hold whitespace, or
      `|s|` when there is none. */
  function SkipWhitespace(s: string, i: nat): (k: nat)
    requires i <= |s|
    ensures i <= k <= |s|
    ensures forall m :: i <= m < k ==> IsJsWhitespace(s[m])
    ensures k < |s| ==> !IsJsWhitespace(s[k])
    decreases |s| - i
  {
    if i < |s| && IsJsWhitespace(s[i]) then SkipWhitespace(s, i + 1) else i
  }

  /** Walking back from `j` no further than `lo`, the end of the last
      character that is not whitespace, or `lo` when there is none. */
  function SkipWhitespaceBack(s: string, lo: nat, j: nat): (k: nat)
    requires lo <= j <= |s|
    ensures lo <= k <= j
    ensures forall m :: k <= m < j ==> IsJsWhitespace(s[m])
    ensures k > lo ==> !IsJsWhitespace(s[k - 1])
    decreases j - lo
  {
    if j > lo && IsJsWhitespace(s[j - 1]) then SkipWhitespaceBack(s, lo, j - 1) else j
  }

  /** `String.prototype.trim`: a contiguous slice of `s`, everything cut away
      on either side is whitespace, and the slice neither starts nor ends
      with whitespace. It is empty exactly when `s` is all whitespace. */
  function Trim(s: string): (r: string)
    ensures var i := SkipWhitespace(s, 0);
      && i + |r| <= |s|
      && r == s[i..i + |r|]
      && (forall m :: 0 <= m < i ==> IsJsWhitespace(s[m]))
      && (forall m :: i + |r| <= m < |s| ==> IsJsWhitespace(s[m]))
    ensures r == [] || (!IsJsWhitespace(r[0]) && !IsJsWhitespace(r[|r| - 1]))
    ensures r == [] <==> AllWhitespace(s)
  {
    var i := SkipWhitespace(s, 0);
    s[i..SkipWhitespaceBack(s, i, |s|)]
  }

  predicate IsDigit(c: char) {
    '0' <= c <= '9'
  }

  /** The first `n` characters of `s` are decimal digits. */
  predicate DigitsBefore(s: string, n: nat)
    requires n <= |s|
  {
    forall k :: 0 <= k < n ==> IsDigit(s[k])
  }

  predicate AllDigits(s: string) {
    DigitsBefore(s, |s|)
  }

  function DigitChar(d: nat): (c: char)
    requires d < 10
    ensures IsDigit(c) && DigitValue(c) == d
  {
    ('0' as int + d) as char
  }

  function DigitValue(c: char): nat
    requires IsDigit(c)
  {
    c as int - '0' as int
  }

  /** The number the first `n` digits of `s` denote (no digits read as 0). */
  function PrefixValue(s: string, n: nat): nat
    requires n <= |s| && DigitsBefore(s, n)
    decreases n
  {
    if n == 0 then 0 else PrefixValue(s, n - 1) * 10 + DigitValue(s[n - 1])
  }

  /** The number a string of decimal digits denotes (the empty string reads as 0). */
  function DigitsValue(s: string): nat
    requires AllDigits(s)
  {
    PrefixValue(s, |s|)
  }

  /** The value of a prefix depends only on the characters in it. */
  lemma {:induction false} PrefixAgree(a: string, b: string, n: nat)
    requires n <= |a| && n <= |b| && DigitsBefore(a, n)
    requires forall k :: 0 <= k < n ==> a[k] == b[k]
    ensures DigitsBefore(b, n) && PrefixValue(a, n) == PrefixValue(b, n)
    decreases n
  {
    if n > 0 {
      PrefixAgree(a, b, n - 1);
    }
  }

  /** `Number.prototype.toString()` of a non-negative integer: its decimal
      digits, with no leading zero. */
  function NatToString(n: nat): (r: string)
    ensures |r| >= 1 && AllDigits(r)
    ensures DigitsValue(r) == n
    ensures r[0] == '0' ==> n == 0
    ensures n < 10 <==> |r| == 1
    ensures n < 100 ==> |r| <= 2
    decreases n
  {
    if n < 10 then [DigitChar(n)]
    else
      var p := NatToString(n / 10);
      var r := p + [DigitChar(n % 10)];
      PrefixAgree(p, r, |p|);
      r
  }

  /** `toString()` of any integer: a minus sign before the digits when negative. */
  function IntToString(i: int): (r: string)
    ensures |r| >= 1 && (r[0] == '-' <==> i < 0)
    ensures i >= 0 ==> AllDigits(r) && DigitsValue(r) == i
    ensures i < 0 ==> |r| >= 2 && AllDigits(r[1..]) && DigitsValue(r[1..]) == -i
    // no leading zero, except for zero itself
    ensures i >= 0 && r[0] == '0' ==> i == 0
    ensures i < 0 ==> r[1] != '0'
  {
    if i < 0 then
      var m := NatToString(-i);
      assert ("-" + m)[1..] == m;
      "-" + m
    else NatToString(i)
  }

  /** `padStart(2, '0')`: zeros in front until the string is two long. */
  function PadStart2(s: string): (r: string)
    ensures |r| == if |s| >= 2 then |s| else 2
    ensures r[|r| - |s|..] == s
    ensures forall k :: 0 <= k < |r| - |s| ==> r[k] == '0'
  {
    if |s| >= 2 then s else if |s| == 1 then "0" + s else "00"
  }

  /** A leading zero shifts every prefix by one place without changing its value. */
  lemma {:induction false} LeadingZero(s: string, n: nat)
    requires n <= |s| && DigitsBefore(s, n)
    ensures DigitsBefore("0" + s, n + 1) && PrefixValue("0" + s, n + 1) == PrefixValue(s, n)
    decreases n
  {
    var z := "0" + s;
    if n > 0 {
      LeadingZero(s, n - 1);
      assert z[n] == s[n - 1];
    }
  }

  /** Padding with zeros keeps the value of a digit string. */
  lemma PadKeepsValue(s: string)
    requires AllDigits(s)
    ensures AllDigits(PadStart2(s)) && DigitsValue(PadStart2(s)) == DigitsValue(s)
  {
    if |s| == 1 {
      LeadingZero(s, 1);
    }
  }
}
